=== FILE: README.md ===
# Jenkins build driver — a Dafny model

This project models `JenkinsBuilder.RunBuild` from the go-jenkins library. `RunBuild`
drives one Jenkins build through its lifecycle:

1. It triggers the job. For a job without parameters the trigger goes to `<base>job/<job>/build`.
   Otherwise it goes to `<base>job/<job>/buildWithParameters?<query>`. A `201 Created`
   reply carries a `Location` header. The queue id is read from the second-to-last
   `/`-separated segment of that header.
2. It calls the callback with kind 1 and the queue id.
3. It polls the queue item until the item is cancelled or has an executable.
4. It polls the run until the run no longer builds. Along the way it calls the callback
   with kind 2 once, for the first successful poll, and with kind 3 once, for the final one.

Every phase retries failed remote calls with the same policy. The failure counter starts at
zero when the phase starts. A failure that arrives while the counter is already 10 ends the
build with that failure, so a phase gives up on its eleventh failure. A successful reply
never resets the counter.

The modules follow that structure:

- `Wrappers`: `Option` and `Result`.
- `Text`: Go's `strings.Split`, `strconv.Itoa` and `strconv.Atoi`, with their round trips.
- `Polling`: the bounded-retry loop shared by the three phases (`Poll`). It also holds a
  reference description of where a phase stops (`StopsAt`). Two lemmas tie the loop to
  that description: one for phases that stop, one for phases that run out of replies.
- `Jenkins`: the data model and the behaviour of `startTask`, `getQueueInfo` and
  `getTaskInfo`, stated as what one reply means to its phase. It also holds the run wait
  with its `statusNotified` flag, and `RunBuild` itself.
- `Lifecycle`: properties of a whole build. These cover the retry boundary, which
  callbacks fire and in which order, and which run is followed.
- `Scenarios`: concrete builds worked through.

The server is modelled as three finite traces of replies, one per phase. Each request
the driver sends consumes the next reply of its phase. A build whose trace runs out
before it returns ends in `OutOfTrace`, which exists only because of the modelling. Callback
invocations are `Event`s (`Queued`, `Started`, `Finished`, `Aborted`) whose `Kind()` is the
integer the callback receives. The two places where the Go code panics are an explicit
`Crashed` outcome:

- indexing the `Location` segments when the header has no `/`;
- a type assertion on a missing `number` in the executable.

### Behaviour of the code worth knowing

- A phase gives up on its 11th failure, not its 10th: the counter is compared with 10
  before it is incremented (jenkins/jenkins_builder.go lines 49, 64 and 89).
- A successful reply never resets the failure counter. It is set to zero only when a phase
  starts (lines 41, 59 and 84), so failures add up across successful polls within a phase
  (`Scenarios.FailuresAccumulateAcrossSuccess`).
- Only status 201 counts as success for the trigger (line 136), and only status 200 for
  the status polls (lines 165 and 200).
- The error a failed phase returns is the underlying error, unchanged. It does not say
  which phase failed.
- An executable without a `number` panics at line 77. The model says
  `Crashed(ExecutableWithoutNumber)`.
- A `Location` segment that is not an integer is an ordinary error of `startTask`
  (line 142), so it is retried like a transport failure.

## Model

| member | source | states |
|---|---|---|
| `Polling.Poll` | jenkins/jenkins_builder.go:61-81 | The phase loop never uses more replies than exist. If it gives up, the last reply it used is a failure carrying the error it returns. If it settles, the last reply it used is a settling one with the value it returns. No earlier reply settles it. Running out means every reply was used. |
| `Polling.PollStopsAt` | jenkins/jenkins_builder.go:61-81 | If the reference description says the phase stops at reply k, the loop ends there, with that reply's error or value, having used k+1 replies. The stopping reply is either the first settling reply with the counter within the limit, or a failure met with the counter at 10 (the failures before it plus the initial count). |
| `Polling.PollExhausts` | jenkins/jenkins_builder.go:61-81 | When no reply is a stopping point, the loop consumes the whole trace. |
| `Polling.PollWithoutPendingIsBounded` | jenkins/jenkins_builder.go:43-54 | A loop whose replies either fail or settle (the trigger loop) sends at most 11 requests from a zero counter. |
| `Polling.GivesUpAfterConsecutiveFailures` | jenkins/jenkins_builder.go:43-54 | If such a loop gives up, its first 11 replies were all failures, and the error returned is the eleventh. |
| `Text.Split` | jenkins/jenkins_builder.go:141 | `strings.Split` gives at least one part. It gives exactly one part iff the separator does not occur. No part contains the separator. |
| `Text.JoinSplit` | jenkins/jenkins_builder.go:141 | Joining the parts of a split with the separator restores the string. |
| `Text.SplitConcat` | jenkins/jenkins_builder.go:141 | Splitting `a + sep + b` gives the parts of `a` followed by the parts of `b`. |
| `Text.SplitJoin` | jenkins/jenkins_builder.go:141 | Splitting a join of parts free of the separator gives the parts back. |
| `Text.Atoi` | jenkins/jenkins_builder.go:142 | `strconv.Atoi` returns only values in the 64-bit range, and any failure reports the text it was given. Which text it accepts is stated by `Text.AtoiReadsDecimalText`. |
| `Text.AtoiReadsDecimalText` | jenkins/jenkins_builder.go:142 | `strconv.Atoi` succeeds only on decimal text (`DecimalText`): at least one digit, with nothing else except a leading sign. Conversely, decimal text of at most 18 characters always succeeds. So a `Location` segment that is not such text is an error, and the trigger is retried. |
| `Text.Itoa` | jenkins/jenkins_builder.go:137 | `strconv.Itoa` writes decimal text: a minus sign exactly for negative numbers, then digits, never a `/`. The model uses it to write the `Location` the server sends. |
| `Text.AtoiItoa` | jenkins/jenkins_builder.go:142 | Every 64-bit integer survives `strconv.Itoa` followed by `strconv.Atoi`. |
| `Jenkins.BuildUrl` | jenkins/jenkins_builder.go:112-119 | The trigger goes to `.../build` exactly when there are no parameters. Otherwise it goes to `.../buildWithParameters?` followed by the encoded query. |
| `Jenkins.ParseQueueId` | jenkins/jenkins_builder.go:139-142 | Reading the `Location` header never asks for another poll. It crashes exactly when the header has no `/`. Any error it returns is a `BadQueueId`. Which segment it reads is stated by `Jenkins.SecondToLastSegment` and `Jenkins.FirstOfTwoSegments`. |
| `Jenkins.SecondToLastSegment` | jenkins/jenkins_builder.go:141-142 | For every `Location` with at least two `/`, the queue id comes from the segment before the last `/`, whatever precedes or follows it. An integer segment settles on its value, and any other segment is a retryable `BadQueueId` naming that segment. |
| `Jenkins.FirstOfTwoSegments` | jenkins/jenkins_builder.go:141-142 | For every `Location` with exactly one `/` (such as `7/` or `abc/7`), the queue id comes from the text before the `/`, with the same integer-or-retry reading. With `Jenkins.SecondToLastSegment` this covers every header that does not crash. |
| `Jenkins.StartTask` | jenkins/jenkins_builder.go:111-143 | The trigger yields a queue id only on a 201 reply, and a 201 reply is read through its `Location` header. A transport failure and any other status are retryable errors, and the status is kept. |
| `Jenkins.Show` | jenkins/jenkins_builder.go:99-102 | `fmt.Sprint` of a string field shows the string when it is present. It shows "<nil>" exactly when the field is missing or is the text "<nil>", so those two cases look alike. |
| `Jenkins.Event.Value` | jenkins/jenkins_builder.go:56-102 | The third callback argument is "" for kind 1 and the run URL as `fmt.Sprint` shows it for kind 2. For kind 3 after a finished run it is the run's `result` as `fmt.Sprint` shows it (SUCCESS, FAILURE, ABORTED, ...). It is "ABORTED" exactly when the item was cancelled in the queue (no payload) or the run's result is ABORTED. |
| `Jenkins.LocationRoundTrip` | jenkins/jenkins_builder.go:139-142 | A `Location` of the form `<prefix>/<queueId>/` yields that queue id for every 64-bit id. |
| `Jenkins.GetInfo` | jenkins/jenkins_builder.go:146-178 | A status request succeeds iff the server answered 200 with a decodable body. The decoded body is the result. |
| `Jenkins.QueueVerdict` | jenkins/jenkins_builder.go:62-80 | A queue poll fails iff the request failed, with the request's error. The wait settles as cancelled iff the item says cancelled, which is checked before the executable. An item neither cancelled nor with an executable asks for another poll. An executable without a number crashes. Otherwise the executable's number becomes the run to follow. |
| `Jenkins.RunVerdict` | jenkins/jenkins_builder.go:87-104 | A run poll fails iff the request failed, with the request's error. It ends the wait iff the decoded run has `building` false, and the run returned is the decoded one. |
| `Jenkins.RunWait` | jenkins/jenkins_builder.go:84-106 | If the run wait settles, it ends on a run that is not building and makes callback 3 for it. A kind-2 callback precedes it unless one was already made. A wait that does not settle makes no kind-3 callback and at most one kind-2 callback. |
| `Jenkins.RunBuild` | jenkins/jenkins_builder.go:31-108 | A build that returns `nil` made a complete lifecycle of callbacks: 1 then "ABORTED", or 1, 2, 3 ending on a run that is not building. Any other ending made an unfinished prefix of one. It sends at most one request per reply. Every trigger goes to the endpoint `BuildUrl` chooses. |
| `Jenkins.WaitInQueue` | jenkins/jenkins_builder.go:56-107 | Once the job is queued, the first callback is kind 1 with the queue id, and no further trigger request is sent. |
| `Lifecycle.SubmissionSettles` | jenkins/jenkins_builder.go:43-54 | A first success preceded by at most 10 failures settles the trigger loop on that success, after that many attempts plus one. |
| `Lifecycle.SubmissionProceeds` | jenkins/jenkins_builder.go:41-56 | Ten failed triggers followed by a success still start the build. The first callback is kind 1 with the queue id, and the first k+1 requests are triggers. |
| `Lifecycle.SubmissionGivesUp` | jenkins/jenkins_builder.go:43-52 | Eleven failed triggers in a row make the build return the eleventh error after exactly eleven trigger requests, with no callback. |
| `Lifecycle.SubmissionFailsOnlyOnEleventh` | jenkins/jenkins_builder.go:43-52 | Conversely, a build that fails without any callback saw eleven failed triggers and returns the eleventh error. |
| `Lifecycle.SubmissionAttemptsBounded` | jenkins/jenkins_builder.go:43-54 | However the build ends, every trigger request is among the first eleven requests. Every request before a trigger request is also a trigger request, so all triggers precede the status polls. |
| `Lifecycle.CancelledWhileQueued` | jenkins/jenkins_builder.go:71-74 | A queue item seen cancelled makes the build return `nil` with the callbacks [kind 1, kind 3 "ABORTED"], no kind 2, and no run poll. |
| `Lifecycle.ExecutableFixesRun` | jenkins/jenkins_builder.go:75-87 | An executable with a number fixes the run. Every later run poll asks for that number. The callbacks after kind 1 are exactly those of the run wait, so pending replies before the executable change nothing. |
| `Lifecycle.ExecutableWithoutNumberCrashes` | jenkins/jenkins_builder.go:75-77 | An executable without a number crashes the build at once, after only the kind-1 callback, with no retry and no run poll. |
| `Lifecycle.QueueGivesUp` | jenkins/jenkins_builder.go:61-69 | A queue wait that stops on a failing reply k ends the build with that reply's error. The only callback is kind 1, and the requests are the triggers followed by exactly k+1 queue polls. |
| `Lifecycle.LocationWithoutSlashCrashes` | jenkins/jenkins_builder.go:139-142 | A 201 reply whose `Location` has no `/` crashes the build before any callback, after the trigger requests so far. |
| `Lifecycle.FirstAnswerIsFirst` | jenkins/jenkins_builder.go:96-100 | The reply reported by kind 2 is the first one that decodes, and every reply before it failed. When none decodes, there is none to report. |
| `Lifecycle.RunWaitFollowsPoll` | jenkins/jenkins_builder.go:86-106 | The run wait with its `statusNotified` flag ends like the shared retry loop with `RunVerdict`: same end, same number of replies used. |
| `Lifecycle.RunWaitEvents` | jenkins/jenkins_builder.go:86-106 | The run wait's callbacks are a kind-2 callback for the first decoded reply it consumed (unless already notified), then a kind-3 callback for the reply that ended it. |
| `Lifecycle.RunWaitReportsOnce` | jenkins/jenkins_builder.go:96-103 | A run wait that settles from the start made exactly two callbacks. Kind 2 is for the first decoded reply and kind 3 for the reply whose `building` is false. |
| `Lifecycle.RunGivesUp` | jenkins/jenkins_builder.go:86-95 | A run wait that stops on a failing reply m ends the build with that reply's error. The callbacks are kind 1, then kind 2 for the first decoded reply before m if there is one, and never kind 3. |
| `Lifecycle.CallbackOrder` | jenkins/jenkins_builder.go:56-107 | A build returning `nil` made callbacks of kinds 1, 3 or 1, 2, 3, so kind 1 comes first and kind 3 last. Any other ending made kinds [], [1] or [1, 2] and never kind 3. |
| `Scenarios.LocationOfItem7` | jenkins/jenkins_builder.go:136-142 | A 201 reply with `Location: http://ci/queue/item/7/` yields queue id 7. |
| `Scenarios.LocationWithoutTrailingSlash` | jenkins/jenkins_builder.go:136-142 | A 201 reply with `Location: http://ci/queue/item/7`, which has no trailing slash, reads the segment "item". That is not an integer, so the trigger attempt fails with a retryable error. |
| `Scenarios.CancelledInQueue` | jenkins/jenkins_builder.go:61-74 | Two waiting polls, then a cancelled item: the callbacks are kind 1 and "ABORTED", after one trigger and three queue polls. |
| `Scenarios.NormalBuild` | jenkins/jenkins_builder.go:41-107 | A normal build gives callbacks 1, 2, 3, with the building run and the finished run as payloads and "SUCCESS" as the final value, and sends exactly the expected five requests. |
| `Scenarios.FailuresAccumulateAcrossSuccess` | jenkins/jenkins_builder.go:59-70 | Five failed queue polls, a successful poll, then failures: the build fails with the transport error after one trigger and twelve queue polls, with only the kind-1 callback. The successful poll did not reset the counter. |

## Left out

- HTTP transport, basic authentication, request headers, and the reading and closing of
  response bodies (lines 120-134, 149-163, 184-198). Each request is reduced to the abstract
  reply it receives.
- JSON decoding into `map[string]interface{}`. Decoded bodies are typed records whose fields
  may be absent. Go compares `fmt.Sprint` of `cancelled` and `building` with `"true"` and
  `"false"`, so a string-typed field such as `"true"` would also match. The model only has
  boolean fields.
- `url.Values.Encode` of the parameters (lines 114-118) is the `encode` parameter of
  `BuildUrl`. The order and escaping of the query are not modelled.
- The run number is an integer. The Go code formats the float it decodes with
  `strconv.FormatFloat(.., 'f', -1, 32)`. It renders `number` for the callbacks with `%v`,
  which switches to exponent notation from 1e6. Precision loss above 2^24 and those
  renderings are not modelled.
- An `executable` that is present but is not a JSON object, or a `number` that is not a
  number, also panics in Go. The model's typed records cannot express these cases.
- `json.Marshal` of the parameters (lines 34-37) cannot fail for a `map[string]string`, and
  its only use is a log line. It is left out with the other logging (lines 39, 58, 83).
- The sleeps between attempts and polls (1, 2 and 5 seconds) are left out. Time is not
  modelled.
- `Text.AtoiReadsDecimalText`: promises success on decimal text only up to 18 characters. Longer decimal text succeeds exactly when its value is in the 64-bit range; stating that would repeat the conversion itself, and `AtoiItoa` covers every in-range value written the way `Itoa` writes it.
- `Text.Atoi`: does not distinguish Go's syntax errors from range errors. The driver only
  retries on either, and the error's text is never inspected.
- The three-trace server is an abstraction of one sequence of replies cut at the phase
  boundaries. `OutOfTrace` stands for a server that has not answered yet, which the real
  driver would keep waiting for.
- `NewBuilder` (lines 23-29) only stores its arguments. Its counterpart is the `Builder`
  datatype.

=== FILE: jenkins.dfy ===
/** One Jenkins build driven end to end: trigger the job, wait while the queue item waits,
    wait while the run builds, and report each stage to the caller's callback.

    The server is a finite trace of replies for each phase; every request the driver sends
    consumes the next reply of its phase. Sleeps, logging, authentication and transport are
    not modelled: each reply is the abstract outcome of one request. */
module Jenkins {
  import opened Wrappers
  import opened Text
  import opened Polling

  // ---------------------------------------------------------------------------
  // Data model

  /** Connection settings of the driver; the credentials only authenticate requests. */
  datatype Builder = Builder(baseUrl: string, username: string, token: string)

  /** Why one remote call failed; every such failure is retried by its phase. */
  datatype Error =
    | TransportError              // the request could not be built or sent
    | UnexpectedStatus(code: int) // an HTTP status other than the expected one
    | BadQueueId(text: string)    // the `Location` segment is not an integer
    | UndecodableBody             // the body could not be read or decoded as JSON

  /** Reply to the trigger request: a transport failure, or a status and `Location` header. */
  datatype TriggerReply = TriggerUnreachable | TriggerAnswered(status: int, location: string)

  /** Reply to a status request: a transport failure, or a status and a body, `None` when
      the body cannot be read or decoded. */
  datatype Reply<+T> = Unreachable | Answered(status: int, body: Option<T>)

  /** The `executable` object of a queue item. */
  datatype Executable = Executable(number: Option<int>)

  /** The fields of a queue item the driver looks at. */
  datatype QueueItem = QueueItem(cancelled: Option<bool>, executable: Option<Executable>)

  /** The fields of a run the driver looks at; the record is also passed on as the payload. */
  datatype RunInfo = RunInfo(number: Option<int>, url: Option<string>, building: Option<bool>, result: Option<string>)

  /** What a successful trigger yields: the queue id, or a `Location` header without any
      `/`, on which the second-to-last segment does not exist and the driver crashes. */
  datatype Ticket = Ticket(queueId: int) | NoParentSegment(location: string)

  /** How the queue wait settles. */
  datatype Dequeued = Cancelled | Executing(runNumber: int) | NoRunNumber

  /** One callback invocation. */
  datatype Event =
    | Queued(queueId: int)  // callback(1, queueId, "", nil)
    | Started(run: RunInfo) // callback(2, number, url, run)
    | Finished(run: RunInfo) // callback(3, number, result, run)
    | Aborted               // callback(3, "", "ABORTED", nil)
  {
    /** The integer code the callback receives first. */
    function Kind(): int {
      match this
      case Queued(_) => 1
      case Started(_) => 2
      case Finished(_) => 3
      case Aborted => 3
    }

    /** The third callback argument: the run URL, the run result, or "ABORTED". A kind-3
        "ABORTED" comes from a cancelled queue item or from a run whose result is ABORTED;
        only the payload tells them apart. */
    function Value(): (v: string)
      ensures Kind() == 1 ==> v == ""
      ensures Kind() == 2 ==> v == Show(Payload().value.url)
      ensures Kind() == 3 ==> (v == "ABORTED" <==> Payload().None? || Payload().value.result == Some("ABORTED"))
      ensures Kind() == 3 && Payload().Some? ==> v == Show(Payload().value.result)
    {
      match this
      case Queued(_) => ""
      case Started(run) => Show(run.url)
      case Finished(run) => Show(run.result)
      case Aborted => "ABORTED"
    }

    /** The raw reply handed to the callback. */
    function Payload(): Option<RunInfo> {
      match this
      case Started(run) => Some(run)
      case Finished(run) => Some(run)
      case _ => None
    }
  }

  /** How `fmt.Sprint` renders a string field that may be missing. A missing field and the
      text "<nil>" render alike. */
  function Show(field: Option<string>): (shown: string)
    ensures field.Some? ==> shown == field.value
    ensures shown == "<nil>" <==> field == None || field == Some("<nil>")
  {
    match field
    case Some(s) => s
    case None => "<nil>"
  }

  /** One request sent to the server. */
  datatype Request =
    | Trigger(url: string)                 // POST to the build endpoint
    | QueuePoll(queueId: int)              // POST <base>queue/item/<queueId>/api/json
    | RunPoll(job: string, runNumber: int) // GET <base>job/<job>/<runNumber>/api/json

  /** Conditions under which the driver crashes instead of returning. */
  datatype Fault = LocationWithoutParent(location: string) | ExecutableWithoutNumber

  /** What `RunBuild` returns: `nil`, an error, a crash, or (a modelling artefact) the
      end of the trace before the build finished. */
  datatype Outcome = Done | Failed(error: Error) | Crashed(fault: Fault) | OutOfTrace

  /** The replies the server gives, phase by phase, in the order the requests are sent. */
  datatype Server = Server(triggers: seq<TriggerReply>, queue: seq<Reply<QueueItem>>, runs: seq<Reply<RunInfo>>)

  /** Everything observable about one call of `RunBuild`. */
  datatype Execution = Execution(events: seq<Event>, requests: seq<Request>, outcome: Outcome)

  const StatusOK := 200
  const StatusCreated := 201

  // ---------------------------------------------------------------------------
  // Triggering the job

  /** `<base>job/<job>`, the common prefix of the trigger URLs. */
  function JobUrl(b: Builder, job: string): string {
    b.baseUrl + "job/" + job
  }

  /** Trigger URL of a job that takes no parameters. */
  function PlainTrigger(b: Builder, job: string): string {
    JobUrl(b, job) + "/build"
  }

  /** Trigger URL of a parameterised job, before its query. */
  function ParameterisedTrigger(b: Builder, job: string): string {
    JobUrl(b, job) + "/buildWithParameters?"
  }

  /** The URL the trigger request goes to; `encode` stands for the query encoding of the
      parameters. The plain endpoint is used exactly when there are no parameters. */
  function BuildUrl(b: Builder, job: string, params: map<string, string>, encode: map<string, string> -> string): (url: string)
    ensures url == PlainTrigger(b, job) <==> |params| == 0
    ensures |params| > 0 ==> url == ParameterisedTrigger(b, job) + encode(params)
  {
    if |params| == 0 then PlainTrigger(b, job)
    else
      var url := ParameterisedTrigger(b, job) + encode(params);
      assert |url| > |PlainTrigger(b, job)|;
      url
  }

  /** The queue id carried by the `Location` header: the integer in its second-to-last
      `/`-separated segment. A header without `/` has no such segment; text that is not an
      integer is an ordinary error, retried like any other. */
  function ParseQueueId(location: string): (v: Verdict<Error, Ticket>)
    ensures !v.Pending?
    ensures v == Settled(NoParentSegment(location)) <==> '/' !in location
    ensures v.Transient? ==> v.err.BadQueueId?
  {
    var segments := Split(location, '/');
    if |segments| < 2 then Settled(NoParentSegment(location))
    else
      match Atoi(segments[|segments| - 2])
      case Success(n) => Settled(Ticket(n))
      case Failure(e) => Transient(BadQueueId(e.text))
  }

  /** One attempt to start the job: anything but a 201 reply is a failure to retry;
      a 201 reply yields the queue id from its `Location` header. */
  function StartTask(reply: TriggerReply): (v: Verdict<Error, Ticket>)
    ensures !v.Pending?
    ensures v.Settled? ==> reply.TriggerAnswered? && reply.status == StatusCreated
    ensures reply.TriggerUnreachable? ==> v == Transient(TransportError)
    ensures reply.TriggerAnswered? && reply.status != StatusCreated ==> v == Transient(UnexpectedStatus(reply.status))
    ensures reply.TriggerAnswered? && reply.status == StatusCreated ==> v == ParseQueueId(reply.location)
  {
    match reply
    case TriggerUnreachable => Transient(TransportError)
    case TriggerAnswered(status, location) =>
      if status != StatusCreated then Transient(UnexpectedStatus(status))
      else ParseQueueId(location)
  }

  /** For any `Location` with at least two `/`, the queue id is read from the segment before
      the last `/`, whatever comes after it: that segment's integer value, or a retryable
      error naming the segment. */
  lemma SecondToLastSegment(prefix: string, seg: string, last: string)
    requires '/' !in seg && '/' !in last
    ensures ParseQueueId(prefix + "/" + seg + "/" + last)
         == match Atoi(seg)
            case Success(n) => Settled(Ticket(n))
            case Failure(_) => Transient(BadQueueId(seg))
  {
    assert prefix + "/" + seg + "/" + last == prefix + ['/'] + (seg + ['/'] + last);
    SplitConcat(prefix, seg + ['/'] + last, '/');
    SplitConcat(seg, last, '/');
    SplitWithoutSeparator(seg, '/');
    SplitWithoutSeparator(last, '/');
  }

  /** A `Location` with exactly one `/` is read the same way: the segment before it is the
      whole text up to the `/`. */
  lemma FirstOfTwoSegments(seg: string, last: string)
    requires '/' !in seg && '/' !in last
    ensures ParseQueueId(seg + "/" + last)
         == match Atoi(seg)
            case Success(n) => Settled(Ticket(n))
            case Failure(_) => Transient(BadQueueId(seg))
  {
    SplitConcat(seg, last, '/');
    SplitWithoutSeparator(seg, '/');
    SplitWithoutSeparator(last, '/');
  }

  /** The server's canonical `Location`, `<prefix>/<queueId>/`, yields that queue id. */
  lemma LocationRoundTrip(prefix: string, queueId: int)
    requires MinInt64 <= queueId <= MaxInt64
    ensures ParseQueueId(prefix + "/" + Itoa(queueId) + "/") == Settled(Ticket(queueId))
  {
    var id := Itoa(queueId);
    assert prefix + "/" + id + "/" == prefix + ['/'] + (id + ['/'] + "");
    SplitConcat(prefix, id + ['/'] + "", '/');
    SplitConcat(id, "", '/');
    SplitWithoutSeparator(id, '/');
    AtoiItoa(queueId);
  }

  // ---------------------------------------------------------------------------
  // Waiting for the queue item and for the run

  /** A status request: any status but 200, or a body that cannot be decoded, is a failure. */
  function GetInfo<T>(reply: Reply<T>): (r: Result<T, Error>)
    ensures r.Success? <==> reply.Answered? && reply.status == StatusOK && reply.body.Some?
    ensures r.Success? ==> r.value == reply.body.value
  {
    match reply
    case Unreachable => Failure(TransportError)
    case Answered(status, body) =>
      if status != StatusOK then Failure(UnexpectedStatus(status))
      else
        match body
        case None => Failure(UndecodableBody)
        case Some(v) => Success(v)
  }

  /** What one queue poll means. Cancellation is checked first; an item that is not
      cancelled and has an executable settles the wait with that executable's number.
      Every other decoded item asks for another poll. */
  function QueueVerdict(reply: Reply<QueueItem>): (v: Verdict<Error, Dequeued>)
    ensures v.Transient? <==> GetInfo(reply).Failure?
    ensures v.Transient? ==> v.err == GetInfo(reply).error
    ensures v == Settled(Cancelled) <==> GetInfo(reply).Success? && GetInfo(reply).value.cancelled == Some(true)
    ensures v.Pending? <==> GetInfo(reply).Success? && GetInfo(reply).value.cancelled != Some(true) && GetInfo(reply).value.executable.None?
    ensures v == Settled(NoRunNumber) <==>
      GetInfo(reply).Success? && GetInfo(reply).value.cancelled != Some(true) && GetInfo(reply).value.executable == Some(Executable(None))
    ensures v.Settled? && v.value.Executing? ==>
      GetInfo(reply).Success? && GetInfo(reply).value.cancelled != Some(true)
      && GetInfo(reply).value.executable == Some(Executable(Some(v.value.runNumber)))
  {
    match GetInfo(reply)
    case Failure(e) => Transient(e)
    case Success(item) =>
      if item.cancelled == Some(true) then Settled(Cancelled)
      else
        match item.executable
        case None => Pending
        case Some(exec) =>
          match exec.number
          case None => Settled(NoRunNumber)
          case Some(n) => Settled(Executing(n))
  }

  /** What one run poll means: a decoded run whose `building` field is false ends the wait. */
  function RunVerdict(reply: Reply<RunInfo>): (v: Verdict<Error, RunInfo>)
    ensures v.Transient? <==> GetInfo(reply).Failure?
    ensures v.Transient? ==> v.err == GetInfo(reply).error
    ensures v.Settled? <==> GetInfo(reply).Success? && GetInfo(reply).value.building == Some(false)
    ensures v.Settled? ==> v.value == GetInfo(reply).value
  {
    match GetInfo(reply)
    case Failure(e) => Transient(e)
    case Success(run) => if run.building == Some(false) then Settled(run) else Pending
  }

  /** End of the run wait: the callbacks it made, how it ended, how many replies it used. */
  datatype RunPhase = RunPhase(events: seq<Event>, stop: Stop<Error, RunInfo>, used: nat)

  /** The run-wait loop with its `statusNotified` flag: the first decoded reply is reported
      as started, and a decoded reply whose `building` is false is reported as finished. */
  function RunWait(replies: seq<Reply<RunInfo>>, failed: nat, notified: bool): (r: RunPhase)
    requires failed <= FailureLimit
    ensures r.used <= |replies|
    ensures r.stop.Exhausted? ==> r.used == |replies|
    ensures r.stop.Reached? ==> r.stop.value.building == Some(false)
    ensures r.stop.Reached? && notified ==> r.events == [Finished(r.stop.value)]
    ensures r.stop.Reached? && !notified ==> |r.events| == 2 && r.events[0].Started? && r.events[1] == Finished(r.stop.value)
    ensures !r.stop.Reached? && notified ==> r.events == []
    ensures !r.stop.Reached? && !notified ==> |r.events| <= 1 && forall e :: e in r.events ==> e.Started?
    decreases |replies|
  {
    if |replies| == 0 then RunPhase([], Exhausted, 0)
    else
      match GetInfo(replies[0])
      case Failure(e) =>
        if failed >= FailureLimit then RunPhase([], GaveUp(e), 1)
        else
          var rest := RunWait(replies[1..], failed + 1, notified);
          rest.(used := rest.used + 1)
      case Success(run) =>
        var started := if notified then [] else [Started(run)];
        if run.building == Some(false) then RunPhase(started + [Finished(run)], Reached(run), 1)
        else
          var rest := RunWait(replies[1..], failed, true);
          RunPhase(started + rest.events, rest.stop, rest.used + 1)
  }

  // ---------------------------------------------------------------------------
  // The whole build

  /** `n` copies of one request. */
  function Repeat(r: Request, n: nat): (rs: seq<Request>)
    ensures |rs| == n && forall i :: 0 <= i < n ==> rs[i] == r
  {
    seq(n, _ => r)
  }

  /** Kind-1 then kind-3 "ABORTED", or kinds 1, 2, 3 with the last run no longer building. */
  predicate Complete(events: seq<Event>) {
    && 2 <= |events| <= 3
    && events[0].Queued?
    && (|events| == 2 ==> events[1] == Aborted)
    && (|events| == 3 ==> events[1].Started? && events[2].Finished? && events[2].run.building == Some(false))
  }

  /** A prefix of a normal lifecycle that has not finished: nothing, kind 1, or kinds 1 and 2. */
  predicate Partial(events: seq<Event>) {
    && |events| <= 2
    && (|events| >= 1 ==> events[0].Queued?)
    && (|events| == 2 ==> events[1].Started?)
  }

  /** One build end to end. The callbacks of a build that returns `nil` form a complete
      lifecycle; any other ending leaves an unfinished prefix of one. Every request
      consumes one reply of the server's trace. */
  function RunBuild(b: Builder, job: string, params: map<string, string>,
                    encode: map<string, string> -> string, server: Server): (x: Execution)
    ensures x.outcome.Done? ==> Complete(x.events)
    ensures !x.outcome.Done? ==> Partial(x.events)
    ensures |x.requests| <= |server.triggers| + |server.queue| + |server.runs|
    ensures forall i :: 0 <= i < |x.requests| && x.requests[i].Trigger? ==> x.requests[i].url == BuildUrl(b, job, params, encode)
  {
    var submit: Polled<Error, Ticket> := Poll(server.triggers, StartTask, 0);
    var sent := Repeat(Trigger(BuildUrl(b, job, params, encode)), submit.used);
    match submit.stop
    case Exhausted => Execution([], sent, OutOfTrace)
    case GaveUp(e) => Execution([], sent, Failed(e))
    case Reached(NoParentSegment(location)) => Execution([], sent, Crashed(LocationWithoutParent(location)))
    case Reached(Ticket(queueId)) =>
      var rest := WaitInQueue(job, queueId, server.queue, server.runs);
      rest.(requests := sent + rest.requests)
  }

  /** Everything after the job is queued: the kind-1 callback, the queue wait and, when an
      executable appears, the run wait. Only status requests are sent from here on. */
  function WaitInQueue(job: string, queueId: int, queue: seq<Reply<QueueItem>>, runs: seq<Reply<RunInfo>>): (x: Execution)
    ensures x.outcome.Done? ==> Complete(x.events)
    ensures !x.outcome.Done? ==> Partial(x.events)
    ensures |x.events| >= 1 && x.events[0] == Queued(queueId)
    ensures |x.requests| <= |queue| + |runs|
    ensures forall i :: 0 <= i < |x.requests| ==> !x.requests[i].Trigger?
  {
    var wait: Polled<Error, Dequeued> := Poll(queue, QueueVerdict, 0);
    var polled := Repeat(QueuePoll(queueId), wait.used);
    match wait.stop
    case Exhausted => Execution([Queued(queueId)], polled, OutOfTrace)
    case GaveUp(e) => Execution([Queued(queueId)], polled, Failed(e))
    case Reached(Cancelled) => Execution([Queued(queueId), Aborted], polled, Done)
    case Reached(NoRunNumber) => Execution([Queued(queueId)], polled, Crashed(ExecutableWithoutNumber))
    case Reached(Executing(runNumber)) =>
      var run := RunWait(runs, 0, false);
      Execution([Queued(queueId)] + run.events, polled + Repeat(RunPoll(job, runNumber), run.used), Returned(run.stop))
  }

  /** What `RunBuild` returns once the run wait is over. */
  function Returned(stop: Stop<Error, RunInfo>): (outcome: Outcome)
    ensures outcome.Done? <==> stop.Reached?
  {
    match stop
    case Exhausted => OutOfTrace
    case GaveUp(e) => Failed(e)
    case Reached(_) => Done
  }
}

=== FILE: lifecycle.dfy ===
/** Properties of one build as a whole: how many times the trigger is retried, which
    callbacks fire in which order, and which run the driver follows. */
module Lifecycle {
  import opened Wrappers
  import opened Polling
  import opened Jenkins

  // ---------------------------------------------------------------------------
  // Submission

  /** Failed trigger attempts before the first success. */
  predicate FailsFirst(triggers: seq<TriggerReply>, k: nat)
    requires k <= |triggers|
  {
    forall j :: 0 <= j < k ==> StartTask(triggers[j]).Transient?
  }

  /** The submission phase settles on the first successful attempt when at most ten
      attempts failed before it. */
  lemma {:induction false} SubmissionSettles(triggers: seq<TriggerReply>, k: nat)
    requires k <= FailureLimit && k < |triggers|
    requires FailsFirst(triggers, k)
    requires StartTask(triggers[k]).Settled?
    ensures Poll(triggers, StartTask, 0) == Polled(Reached(StartTask(triggers[k]).value), k + 1)
  {
    TransientsOfFailures(triggers[..k], StartTask);
    assert StopsAt(triggers, StartTask, 0, k);
    PollStopsAt(triggers, StartTask, 0, k);
  }

  /** Ten failed attempts followed by a success still start the build: the kind-1
      callback reports the queue id, after eleven trigger requests at most. */
  lemma SubmissionProceeds(b: Builder, job: string, params: map<string, string>,
                           encode: map<string, string> -> string, server: Server, k: nat, queueId: int)
    requires k <= FailureLimit && k < |server.triggers|
    requires FailsFirst(server.triggers, k)
    requires StartTask(server.triggers[k]) == Settled(Ticket(queueId))
    ensures var x := RunBuild(b, job, params, encode, server);
      && |x.events| >= 1 && x.events[0] == Queued(queueId)
      && |x.requests| >= k + 1
      && x.requests[..k + 1] == Repeat(Trigger(BuildUrl(b, job, params, encode)), k + 1)
  {
    SubmissionSettles(server.triggers, k);
  }

  /** Eleven failed attempts in a row end the build with the eleventh error, after eleven
      trigger requests and without any callback. */
  lemma SubmissionGivesUp(b: Builder, job: string, params: map<string, string>,
                          encode: map<string, string> -> string, server: Server)
    requires FailureLimit < |server.triggers|
    requires FailsFirst(server.triggers, FailureLimit + 1)
    ensures RunBuild(b, job, params, encode, server)
         == Execution([], Repeat(Trigger(BuildUrl(b, job, params, encode)), FailureLimit + 1),
                      Failed(StartTask(server.triggers[FailureLimit]).err))
  {
    var triggers := server.triggers;
    TransientsOfFailures(triggers[..FailureLimit], StartTask);
    assert StopsAt(triggers, StartTask, 0, FailureLimit);
    PollStopsAt(triggers, StartTask, 0, FailureLimit);
  }

  /** Conversely, a build that fails without any callback has seen exactly eleven failed
      trigger attempts and returns the last one's error. */
  lemma SubmissionFailsOnlyOnEleventh(b: Builder, job: string, params: map<string, string>,
                                      encode: map<string, string> -> string, server: Server)
    requires RunBuild(b, job, params, encode, server).outcome.Failed?
    requires RunBuild(b, job, params, encode, server).events == []
    ensures FailureLimit < |server.triggers| && FailsFirst(server.triggers, FailureLimit + 1)
    ensures RunBuild(b, job, params, encode, server).outcome.error == StartTask(server.triggers[FailureLimit]).err
  {
    var submit := Poll(server.triggers, StartTask, 0);
    assert submit.stop.GaveUp?;
    GivesUpAfterConsecutiveFailures(server.triggers, StartTask, 0);
  }

  /** However the build ends, the trigger is sent at most eleven times, and all trigger
      requests come before any other request. */
  lemma SubmissionAttemptsBounded(b: Builder, job: string, params: map<string, string>,
                                  encode: map<string, string> -> string, server: Server)
    ensures var x := RunBuild(b, job, params, encode, server);
      forall i :: 0 <= i < |x.requests| && x.requests[i].Trigger? ==> i <= FailureLimit
    ensures var x := RunBuild(b, job, params, encode, server);
      forall i, j :: 0 <= i < j < |x.requests| && x.requests[j].Trigger? ==> x.requests[i].Trigger?
  {
    PollWithoutPendingIsBounded(server.triggers, StartTask, 0);
    var x := RunBuild(b, job, params, encode, server);
    var submit := Poll(server.triggers, StartTask, 0);
    var sent := Repeat(Trigger(BuildUrl(b, job, params, encode)), submit.used);
    if submit.stop.Reached? && submit.stop.value.Ticket? {
      var queueId := submit.stop.value.queueId;
      AfterSubmission(b, job, params, encode, server, queueId);
      var rest := WaitInQueue(job, queueId, server.queue, server.runs).requests;
      assert x.requests == sent + rest;
    }
  }

  // ---------------------------------------------------------------------------
  // Queue wait

  /** Once the job is queued, the build's callbacks and outcome are those of the queue and
      run waits, after the trigger requests. */
  lemma AfterSubmission(b: Builder, job: string, params: map<string, string>,
                        encode: map<string, string> -> string, server: Server, queueId: int)
    requires Poll(server.triggers, StartTask, 0).stop == Reached(Ticket(queueId))
    ensures var x := RunBuild(b, job, params, encode, server);
      var rest := WaitInQueue(job, queueId, server.queue, server.runs);
      && x.events == rest.events
      && x.outcome == rest.outcome
      && x.requests == Repeat(Trigger(BuildUrl(b, job, params, encode)), Poll(server.triggers, StartTask, 0).used) + rest.requests
  {
  }

  /** A queue item seen cancelled ends the build normally: the kind-1 callback, then a single
      kind-3 "ABORTED" callback and no kind-2 callback; the run is never polled. */
  lemma CancelledWhileQueued(b: Builder, job: string, params: map<string, string>,
                             encode: map<string, string> -> string, server: Server, queueId: int, k: nat)
    requires Poll(server.triggers, StartTask, 0).stop == Reached(Ticket(queueId))
    requires StopsAt(server.queue, QueueVerdict, 0, k)
    requires QueueVerdict(server.queue[k]) == Settled(Cancelled)
    ensures var x := RunBuild(b, job, params, encode, server);
      && x.outcome == Done
      && x.events == [Queued(queueId), Aborted]
      && x.events[1].Kind() == 3 && x.events[1].Value() == "ABORTED"
      && forall i :: 0 <= i < |x.requests| ==> !x.requests[i].RunPoll?
  {
    var x := RunBuild(b, job, params, encode, server);
    QueueCancelled(job, queueId, server.queue, server.runs, k);
    AfterSubmission(b, job, params, encode, server, queueId);
    var sent := Repeat(Trigger(BuildUrl(b, job, params, encode)), Poll(server.triggers, StartTask, 0).used);
    NoRunPolls(sent, Repeat(QueuePoll(queueId), k + 1));
  }

  /** The queue-wait part of `CancelledWhileQueued`. */
  lemma QueueCancelled(job: string, queueId: int, queue: seq<Reply<QueueItem>>, runs: seq<Reply<RunInfo>>, k: nat)
    requires StopsAt(queue, QueueVerdict, 0, k)
    requires QueueVerdict(queue[k]) == Settled(Cancelled)
    ensures WaitInQueue(job, queueId, queue, runs) == Execution([Queued(queueId), Aborted], Repeat(QueuePoll(queueId), k + 1), Done)
  {
    PollStopsAt(queue, QueueVerdict, 0, k);
  }

  /** An item that is not cancelled and has an executable with a number fixes the run the
      driver follows: every run poll asks for that number, and the callbacks after the
      kind-1 one are exactly those of the run wait. */
  lemma ExecutableFixesRun(b: Builder, job: string, params: map<string, string>,
                           encode: map<string, string> -> string, server: Server, queueId: int, k: nat, runNumber: int)
    requires Poll(server.triggers, StartTask, 0).stop == Reached(Ticket(queueId))
    requires StopsAt(server.queue, QueueVerdict, 0, k)
    requires QueueVerdict(server.queue[k]) == Settled(Executing(runNumber))
    ensures var x := RunBuild(b, job, params, encode, server);
      && x.events == [Queued(queueId)] + RunWait(server.runs, 0, false).events
      && forall i :: 0 <= i < |x.requests| && x.requests[i].RunPoll? ==> x.requests[i] == RunPoll(job, runNumber)
  {
    QueueExecutes(job, queueId, server.queue, server.runs, k, runNumber);
    AfterSubmission(b, job, params, encode, server, queueId);
    var x := RunBuild(b, job, params, encode, server);
    var sent := Repeat(Trigger(BuildUrl(b, job, params, encode)), Poll(server.triggers, StartTask, 0).used);
    var polled := Repeat(QueuePoll(queueId), k + 1);
    var followed := Repeat(RunPoll(job, runNumber), RunWait(server.runs, 0, false).used);
    assert x.requests == sent + (polled + followed);
    OnlyRunPollsOf(sent, polled, followed, RunPoll(job, runNumber));
  }

  /** After trigger and queue requests, the run polls are those of `followed`, all `run`. */
  lemma OnlyRunPollsOf(sent: seq<Request>, polled: seq<Request>, followed: seq<Request>, run: Request)
    requires forall i :: 0 <= i < |sent| ==> sent[i].Trigger?
    requires forall i :: 0 <= i < |polled| ==> polled[i].QueuePoll?
    requires forall i :: 0 <= i < |followed| ==> followed[i] == run
    ensures var all := sent + (polled + followed);
      forall i :: 0 <= i < |all| && all[i].RunPoll? ==> all[i] == run
  {
    var all := sent + (polled + followed);
    forall i | 0 <= i < |all| && all[i].RunPoll?
      ensures all[i] == run
    {
      assert all[i] == followed[i - |sent| - |polled|];
    }
  }

  /** The queue-wait part of `ExecutableFixesRun`. */
  lemma QueueExecutes(job: string, queueId: int, queue: seq<Reply<QueueItem>>, runs: seq<Reply<RunInfo>>, k: nat, runNumber: int)
    requires StopsAt(queue, QueueVerdict, 0, k)
    requires QueueVerdict(queue[k]) == Settled(Executing(runNumber))
    ensures var run := RunWait(runs, 0, false);
      WaitInQueue(job, queueId, queue, runs)
        == Execution([Queued(queueId)] + run.events,
                     Repeat(QueuePoll(queueId), k + 1) + Repeat(RunPoll(job, runNumber), run.used),
                     Returned(run.stop))
  {
    PollStopsAt(queue, QueueVerdict, 0, k);
  }

  /** An executable without a number stops the build at once (the driver crashes): the
      failure is not retried and no run is polled. */
  lemma ExecutableWithoutNumberCrashes(b: Builder, job: string, params: map<string, string>,
                                       encode: map<string, string> -> string, server: Server, queueId: int, k: nat)
    requires Poll(server.triggers, StartTask, 0).stop == Reached(Ticket(queueId))
    requires StopsAt(server.queue, QueueVerdict, 0, k)
    requires QueueVerdict(server.queue[k]) == Settled(NoRunNumber)
    ensures var x := RunBuild(b, job, params, encode, server);
      && x.outcome == Crashed(ExecutableWithoutNumber)
      && x.events == [Queued(queueId)]
      && forall i :: 0 <= i < |x.requests| ==> !x.requests[i].RunPoll?
  {
    var x := RunBuild(b, job, params, encode, server);
    QueueMissingNumber(job, queueId, server.queue, server.runs, k);
    AfterSubmission(b, job, params, encode, server, queueId);
    var sent := Repeat(Trigger(BuildUrl(b, job, params, encode)), Poll(server.triggers, StartTask, 0).used);
    NoRunPolls(sent, Repeat(QueuePoll(queueId), k + 1));
  }

  /** The queue-wait part of `ExecutableWithoutNumberCrashes`. */
  lemma QueueMissingNumber(job: string, queueId: int, queue: seq<Reply<QueueItem>>, runs: seq<Reply<RunInfo>>, k: nat)
    requires StopsAt(queue, QueueVerdict, 0, k)
    requires QueueVerdict(queue[k]) == Settled(NoRunNumber)
    ensures WaitInQueue(job, queueId, queue, runs) == Execution([Queued(queueId)], Repeat(QueuePoll(queueId), k + 1), Crashed(ExecutableWithoutNumber))
  {
    PollStopsAt(queue, QueueVerdict, 0, k);
  }

  /** A queue wait that meets its eleventh failure ends the build with that failure's
      error, after the kind-1 callback alone; no run is polled. */
  lemma QueueGivesUp(b: Builder, job: string, params: map<string, string>,
                     encode: map<string, string> -> string, server: Server, queueId: int, k: nat)
    requires Poll(server.triggers, StartTask, 0).stop == Reached(Ticket(queueId))
    requires StopsAt(server.queue, QueueVerdict, 0, k)
    requires GetInfo(server.queue[k]).Failure?
    ensures var x := RunBuild(b, job, params, encode, server);
      && x.outcome == Failed(GetInfo(server.queue[k]).error)
      && x.events == [Queued(queueId)]
      && x.requests == Repeat(Trigger(BuildUrl(b, job, params, encode)), Poll(server.triggers, StartTask, 0).used)
                       + Repeat(QueuePoll(queueId), k + 1)
  {
    QueueFails(job, queueId, server.queue, server.runs, k);
    AfterSubmission(b, job, params, encode, server, queueId);
  }

  /** The queue-wait part of `QueueGivesUp`. */
  lemma QueueFails(job: string, queueId: int, queue: seq<Reply<QueueItem>>, runs: seq<Reply<RunInfo>>, k: nat)
    requires StopsAt(queue, QueueVerdict, 0, k)
    requires GetInfo(queue[k]).Failure?
    ensures WaitInQueue(job, queueId, queue, runs) == Execution([Queued(queueId)], Repeat(QueuePoll(queueId), k + 1), Failed(GetInfo(queue[k]).error))
  {
    PollStopsAt(queue, QueueVerdict, 0, k);
  }

  /** Trigger and queue requests contain no run poll. */
  lemma NoRunPolls(sent: seq<Request>, polled: seq<Request>)
    requires forall i :: 0 <= i < |sent| ==> sent[i].Trigger?
    requires forall i :: 0 <= i < |polled| ==> polled[i].QueuePoll?
    ensures forall i :: 0 <= i < |sent + polled| ==> !(sent + polled)[i].RunPoll?
  {
  }

  /** A 201 reply whose `Location` has no `/` stops the build at once (the driver crashes)
      before any callback, however many failures preceded it. */
  lemma LocationWithoutSlashCrashes(b: Builder, job: string, params: map<string, string>,
                                    encode: map<string, string> -> string, server: Server, k: nat, location: string)
    requires k <= FailureLimit && k < |server.triggers|
    requires FailsFirst(server.triggers, k)
    requires server.triggers[k] == TriggerAnswered(StatusCreated, location)
    requires '/' !in location
    ensures var x := RunBuild(b, job, params, encode, server);
      && x.outcome == Crashed(LocationWithoutParent(location))
      && x.events == []
      && x.requests == Repeat(Trigger(BuildUrl(b, job, params, encode)), k + 1)
  {
    SubmissionSettles(server.triggers, k);
  }

  // ---------------------------------------------------------------------------
  // Run wait

  /** The first reply in `replies` that decodes, if any. */
  function FirstAnswer(replies: seq<Reply<RunInfo>>): Option<RunInfo>
    decreases |replies|
  {
    if |replies| == 0 then None
    else
      match GetInfo(replies[0])
      case Success(run) => Some(run)
      case Failure(_) => FirstAnswer(replies[1..])
  }

  /** `FirstAnswer` finds the first decoded reply, and finds none only when none decodes. */
  lemma {:induction false} FirstAnswerIsFirst(replies: seq<Reply<RunInfo>>)
    ensures var first := FirstAnswer(replies);
      first.Some? ==> exists j :: 0 <= j < |replies| && GetInfo(replies[j]) == Success(first.value)
                                  && forall i :: 0 <= i < j ==> GetInfo(replies[i]).Failure?
    ensures FirstAnswer(replies).None? ==> forall j :: 0 <= j < |replies| ==> GetInfo(replies[j]).Failure?
    decreases |replies|
  {
    if |replies| > 0 && GetInfo(replies[0]).Failure? {
      var rest := replies[1..];
      FirstAnswerIsFirst(rest);
      assert forall j :: 0 < j < |replies| ==> replies[j] == rest[j - 1];
      if FirstAnswer(rest).Some? {
        var j :| 0 <= j < |rest| && GetInfo(rest[j]) == Success(FirstAnswer(rest).value)
                 && forall i :: 0 <= i < j ==> GetInfo(rest[i]).Failure?;
        assert GetInfo(replies[j + 1]) == Success(FirstAnswer(replies).value);
      }
    }
  }

  /** The kind-2 callback a run wait makes: the first decoded reply, unless already sent. */
  function Announce(consumed: seq<Reply<RunInfo>>, notified: bool): seq<Event> {
    if notified then []
    else
      match FirstAnswer(consumed)
      case Some(run) => [Started(run)]
      case None => []
  }

  /** The kind-3 callback a run wait makes: the reply that ended it. */
  function Conclude(stop: Stop<Error, RunInfo>): seq<Event> {
    if stop.Reached? then [Finished(stop.value)] else []
  }

  /** The run wait is the shared polling loop with `RunVerdict`: it ends on the same reply
      with the same result. */
  lemma {:induction false} RunWaitFollowsPoll(replies: seq<Reply<RunInfo>>, failed: nat, notified: bool)
    requires failed <= FailureLimit
    ensures RunWait(replies, failed, notified).stop == Poll(replies, RunVerdict, failed).stop
    ensures RunWait(replies, failed, notified).used == Poll(replies, RunVerdict, failed).used
    decreases |replies|
  {
    if |replies| > 0 && !RunVerdict(replies[0]).Settled? {
      if GetInfo(replies[0]).Failure? {
        if failed < FailureLimit {
          RunWaitFollowsPoll(replies[1..], failed + 1, notified);
        }
      } else {
        RunWaitFollowsPoll(replies[1..], failed, true);
      }
    }
  }

  /** The callbacks of a run wait: a kind-2 callback for the first decoded reply it consumed
      (failures before it do not matter) and a kind-3 callback for the reply that ended it. */
  lemma {:induction false} RunWaitEvents(replies: seq<Reply<RunInfo>>, failed: nat, notified: bool)
    requires failed <= FailureLimit
    ensures var r := RunWait(replies, failed, notified);
      r.events == Announce(replies[..r.used], notified) + Conclude(r.stop)
    decreases |replies|
  {
    if |replies| > 0 {
      var r := RunWait(replies, failed, notified);
      var prefix := replies[..r.used];
      match GetInfo(replies[0])
      case Failure(e) =>
        if failed < FailureLimit {
          var rest := RunWait(replies[1..], failed + 1, notified);
          assert r == rest.(used := rest.used + 1);
          RunWaitEvents(replies[1..], failed + 1, notified);
          assert prefix[1..] == replies[1..][..rest.used];
          assert FirstAnswer(prefix) == FirstAnswer(replies[1..][..rest.used]);
        } else {
          assert r == RunPhase([], GaveUp(e), 1);
          assert prefix[1..] == [];
          assert FirstAnswer(prefix) == None;
        }
      case Success(run) =>
        var started := if notified then [] else [Started(run)];
        assert prefix[0] == replies[0];
        assert FirstAnswer(prefix) == Some(run);
        if run.building == Some(false) {
          assert r == RunPhase(started + [Finished(run)], Reached(run), 1);
        } else {
          var rest := RunWait(replies[1..], failed, true);
          assert r == RunPhase(started + rest.events, rest.stop, rest.used + 1);
          RunWaitEvents(replies[1..], failed, true);
        }
    }
  }

  /** A run wait that ends settled made exactly one kind-2 callback, for the first decoded
      reply, and one kind-3 callback, for the reply whose `building` is false. */
  lemma RunWaitReportsOnce(replies: seq<Reply<RunInfo>>)
    requires Poll(replies, RunVerdict, 0).stop.Reached?
    ensures var r := RunWait(replies, 0, false);
      && r.stop.Reached?
      && FirstAnswer(replies[..r.used]).Some?
      && r.events == [Started(FirstAnswer(replies[..r.used]).value), Finished(r.stop.value)]
      && r.stop.value.building == Some(false)
  {
    RunWaitFollowsPoll(replies, 0, false);
    RunWaitEvents(replies, 0, false);
    var r := RunWait(replies, 0, false);
    assert GetInfo(replies[..r.used][r.used - 1]).Success?;
  }

  /** A run wait that meets its eleventh failure at reply `m` ends the build with that
      failure's error. The callbacks are kind 1 and, when a reply before `m` decoded, the
      kind-2 callback for the first such reply; there is no kind-3 callback. */
  lemma RunGivesUp(b: Builder, job: string, params: map<string, string>,
                   encode: map<string, string> -> string, server: Server, queueId: int, k: nat, runNumber: int, m: nat)
    requires Poll(server.triggers, StartTask, 0).stop == Reached(Ticket(queueId))
    requires StopsAt(server.queue, QueueVerdict, 0, k)
    requires QueueVerdict(server.queue[k]) == Settled(Executing(runNumber))
    requires StopsAt(server.runs, RunVerdict, 0, m)
    requires GetInfo(server.runs[m]).Failure?
    ensures var x := RunBuild(b, job, params, encode, server);
      && x.outcome == Failed(GetInfo(server.runs[m]).error)
      && x.events == [Queued(queueId)] + Announce(server.runs[..m + 1], false)
  {
    ExecutableFixesRun(b, job, params, encode, server, queueId, k, runNumber);
    QueueExecutes(job, queueId, server.queue, server.runs, k, runNumber);
    AfterSubmission(b, job, params, encode, server, queueId);
    RunWaitStopsAt(server.runs, m);
  }

  /** The run-wait part of `RunGivesUp`. */
  lemma RunWaitStopsAt(runs: seq<Reply<RunInfo>>, m: nat)
    requires StopsAt(runs, RunVerdict, 0, m)
    requires GetInfo(runs[m]).Failure?
    ensures var run := RunWait(runs, 0, false);
      && run.stop == GaveUp(GetInfo(runs[m]).error)
      && run.events == Announce(runs[..m + 1], false)
  {
    PollStopsAt(runs, RunVerdict, 0, m);
    RunWaitFollowsPoll(runs, 0, false);
    RunWaitEvents(runs, 0, false);
  }

  // ---------------------------------------------------------------------------
  // The whole build

  /** The callback kinds, in order. */
  function Kinds(events: seq<Event>): seq<int> {
    seq(|events|, i requires 0 <= i < |events| => events[i].Kind())
  }

  /** The kinds of a complete lifecycle. */
  lemma KindsOfComplete(events: seq<Event>)
    requires Complete(events)
    ensures Kinds(events) == [1, 3] || Kinds(events) == [1, 2, 3]
  {
  }

  /** The kinds of an unfinished lifecycle. */
  lemma KindsOfPartial(events: seq<Event>)
    requires Partial(events)
    ensures Kinds(events) in {[], [1], [1, 2]}
  {
    var ks := Kinds(events);
    if |events| == 2 {
      assert ks == [ks[0], ks[1]];
    } else if |events| == 1 {
      assert ks == [ks[0]];
    }
  }

  /** A build that returns `nil` made the callbacks 1, 3 or 1, 2, 3; one that ends any
      other way made 1, 2 or fewer, and never a kind-3 callback. */
  lemma CallbackOrder(b: Builder, job: string, params: map<string, string>,
                      encode: map<string, string> -> string, server: Server)
    ensures var x := RunBuild(b, job, params, encode, server);
      x.outcome.Done? ==> Kinds(x.events) == [1, 3] || Kinds(x.events) == [1, 2, 3]
    ensures var x := RunBuild(b, job, params, encode, server);
      !x.outcome.Done? ==> Kinds(x.events) in {[], [1], [1, 2]}
  {
    var x := RunBuild(b, job, params, encode, server);
    if x.outcome.Done? {
      KindsOfComplete(x.events);
    } else {
      KindsOfPartial(x.events);
    }
  }
}

=== FILE: polling.dfy ===
/** The bounded-retry loop that each phase of a build runs.

    Every phase of `RunBuild` repeats one remote call until the reply settles the phase.
    A failed call counts against the phase's failure counter; the phase gives up when a
    call fails while the counter already stands at the limit. A successful reply that does
    not settle the phase leaves the counter as it is: the counter starts at zero when the
    phase starts and is never reset inside it.

    The remote side is a finite trace of replies, one per iteration. `classify` tells what
    one reply means to the phase. */
module Polling {

  /** The counter value at which the next failure ends the phase. The check comes
      before the increment, so a phase survives ten failures and gives up on the eleventh. */
  const FailureLimit: nat := 10

  /** What one reply means to the phase: a failure to be retried, a successful reply that
      asks for another poll, or a reply that ends the phase with a value. */
  datatype Verdict<+E, +T> = Transient(err: E) | Pending | Settled(value: T)

  /** How a phase ended: it gave up with the last failure, it settled with a value, or the
      trace of replies ran out before either happened. */
  datatype Stop<+E, +T> = GaveUp(err: E) | Reached(value: T) | Exhausted

  /** The end of a phase together with the number of replies (and requests) it used. */
  datatype Polled<+E, +T> = Polled(stop: Stop<E, T>, used: nat)

  /** The loop shared by the three phases: one reply per iteration, failures counted in
      `failed`, the phase ending on a settling reply or on a failure at the limit. */
  function Poll<R, E, T>(replies: seq<R>, classify: R -> Verdict<E, T>, failed: nat): (p: Polled<E, T>)
    requires failed <= FailureLimit
    ensures p.used <= |replies|
    ensures p.stop.Exhausted? ==> p.used == |replies|
    ensures p.stop.GaveUp? ==> 0 < p.used && classify(replies[p.used - 1]) == Transient(p.stop.err)
    ensures p.stop.Reached? ==> 0 < p.used && classify(replies[p.used - 1]) == Settled(p.stop.value)
    ensures forall j :: 0 <= j < p.used - 1 ==> !classify(replies[j]).Settled?
    decreases |replies|
  {
    if |replies| == 0 then Polled(Exhausted, 0)
    else
      match classify(replies[0])
      case Transient(e) =>
        if failed >= FailureLimit then Polled(GaveUp(e), 1)
        else Later(Poll(replies[1..], classify, failed + 1))
      case Pending => Later(Poll(replies[1..], classify, failed))
      case Settled(v) => Polled(Reached(v), 1)
  }

  /** The same end, one reply later. */
  function Later<E, T>(p: Polled<E, T>): Polled<E, T> {
    p.(used := p.used + 1)
  }

  // ---------------------------------------------------------------------------
  // A reference description of where a phase stops, by position in the trace

  /** Number of failed replies in `replies`, whatever lies between them. */
  function Transients<R, E, T>(replies: seq<R>, classify: R -> Verdict<E, T>): nat
    decreases |replies|
  {
    if |replies| == 0 then 0
    else (if classify(replies[0]).Transient? then 1 else 0) + Transients(replies[1..], classify)
  }

  /** The phase started with counter `failed` stops at reply `k`: nothing before `k` settled
      it, and reply `k` either settles it or is a failure met with the counter at the limit
      (the failures before `k` plus the initial count). */
  ghost predicate StopsAt<R, E, T>(replies: seq<R>, classify: R -> Verdict<E, T>, failed: nat, k: nat) {
    && k < |replies|
    && (forall j :: 0 <= j < k ==> !classify(replies[j]).Settled?)
    && match classify(replies[k])
       case Settled(_) => failed + Transients(replies[..k], classify) <= FailureLimit
       case Transient(_) => failed + Transients(replies[..k], classify) == FailureLimit
       case Pending => false
  }

  /** The end a stopping reply gives the phase. */
  function StopOf<E, T>(v: Verdict<E, T>): Stop<E, T>
    requires !v.Pending?
  {
    match v
    case Transient(e) => GaveUp(e)
    case Settled(x) => Reached(x)
  }

  /** Counter after the first reply when it does not settle the phase. */
  function Bump<R, E, T>(replies: seq<R>, classify: R -> Verdict<E, T>, failed: nat): nat
    requires |replies| > 0
  {
    failed + (if classify(replies[0]).Transient? then 1 else 0)
  }

  /** Dropping a first reply that does not settle the phase shifts the stopping point by one. */
  lemma StopsAtShift<R, E, T>(replies: seq<R>, classify: R -> Verdict<E, T>, failed: nat, k: nat)
    requires 0 < k < |replies|
    requires !classify(replies[0]).Settled?
    ensures StopsAt(replies, classify, failed, k) <==> StopsAt(replies[1..], classify, Bump(replies, classify, failed), k - 1)
  {
    assert replies[..k][1..] == replies[1..][..k - 1];
    var rest := replies[1..];
    assert forall j :: 0 <= j < k - 1 ==> rest[j] == replies[j + 1];
    if forall j :: 0 <= j < k - 1 ==> !classify(rest[j]).Settled? {
      forall j | 0 <= j < k
        ensures !classify(replies[j]).Settled?
      {
        if j > 0 {
          assert replies[j] == rest[j - 1];
        }
      }
    }
  }

  /** A phase stops exactly where the reference says, having used the replies up to there. */
  lemma {:induction false} PollStopsAt<R, E, T>(replies: seq<R>, classify: R -> Verdict<E, T>, failed: nat, k: nat)
    requires failed <= FailureLimit
    requires StopsAt(replies, classify, failed, k)
    ensures Poll(replies, classify, failed) == Polled(StopOf(classify(replies[k])), k + 1)
    decreases k
  {
    if k > 0 {
      assert !classify(replies[0]).Settled?;
      assert replies[..k][1..] == replies[1..][..k - 1];
      StopsAtShift(replies, classify, failed, k);
      PollStopsAt(replies[1..], classify, Bump(replies, classify, failed), k - 1);
      assert replies[1..][k - 1] == replies[k];
    }
  }

  /** When no reply of the trace is a stopping point the phase uses up the trace. */
  lemma {:induction false} PollExhausts<R, E, T>(replies: seq<R>, classify: R -> Verdict<E, T>, failed: nat)
    requires failed <= FailureLimit
    requires forall k :: 0 <= k < |replies| ==> !StopsAt(replies, classify, failed, k)
    ensures Poll(replies, classify, failed) == Polled(Exhausted, |replies|)
    decreases |replies|
  {
    if |replies| > 0 {
      assert !StopsAt(replies, classify, failed, 0);
      assert replies[..0] == [];
      var failed' := Bump(replies, classify, failed);
      forall k | 0 <= k < |replies| - 1
        ensures !StopsAt(replies[1..], classify, failed', k)
      {
        StopsAtShift(replies, classify, failed, k + 1);
      }
      PollExhausts(replies[1..], classify, failed');
    }
  }

  /** Failures in a prefix of only failures. */
  lemma {:induction false} TransientsOfFailures<R, E, T>(replies: seq<R>, classify: R -> Verdict<E, T>)
    requires forall j :: 0 <= j < |replies| ==> classify(replies[j]).Transient?
    ensures Transients(replies, classify) == |replies|
    decreases |replies|
  {
    if |replies| > 0 {
      TransientsOfFailures(replies[1..], classify);
    }
  }

  /** Failures add up over consecutive stretches of the trace. */
  lemma {:induction false} TransientsConcat<R, E, T>(a: seq<R>, b: seq<R>, classify: R -> Verdict<E, T>)
    ensures Transients(a + b, classify) == Transients(a, classify) + Transients(b, classify)
    decreases |a|
  {
    if |a| == 0 {
      assert a + b == b;
    } else {
      assert (a + b)[1..] == a[1..] + b;
      TransientsConcat(a[1..], b, classify);
    }
  }

  /** A phase whose replies are never merely pending (the submission phase) uses at most
      `FailureLimit + 1` replies from the counter it starts with at zero. */
  lemma {:induction false} PollWithoutPendingIsBounded<R, E, T>(replies: seq<R>, classify: R -> Verdict<E, T>, failed: nat)
    requires failed <= FailureLimit
    requires forall j :: 0 <= j < |replies| ==> !classify(replies[j]).Pending?
    ensures Poll(replies, classify, failed).used <= FailureLimit + 1 - failed
    decreases |replies|
  {
    if |replies| > 0 && classify(replies[0]).Transient? && failed < FailureLimit {
      PollWithoutPendingIsBounded(replies[1..], classify, failed + 1);
    }
  }

  /** A phase whose replies are never merely pending gives up only after its first
      `FailureLimit + 1 - failed` replies all failed, with the error of the last of them. */
  lemma {:induction false} GivesUpAfterConsecutiveFailures<R, E, T>(replies: seq<R>, classify: R -> Verdict<E, T>, failed: nat)
    requires failed <= FailureLimit
    requires forall j :: 0 <= j < |replies| ==> !classify(replies[j]).Pending?
    requires Poll(replies, classify, failed).stop.GaveUp?
    ensures FailureLimit - failed < |replies|
    ensures forall j :: 0 <= j <= FailureLimit - failed ==> classify(replies[j]).Transient?
    ensures Poll(replies, classify, failed).stop.err == classify(replies[FailureLimit - failed]).err
    decreases |replies|
  {
    if failed < FailureLimit {
      var rest := replies[1..];
      GivesUpAfterConsecutiveFailures(rest, classify, failed + 1);
      forall j | 0 <= j <= FailureLimit - failed
        ensures classify(replies[j]).Transient?
      {
        if j > 0 {
          assert replies[j] == rest[j - 1];
        }
      }
    }
  }
}

=== FILE: scenarios.dfy ===
/** Concrete builds: the server's replies written out, and what the driver does with them. */
module Scenarios {
  import opened Wrappers
  import Text
  import opened Polling
  import opened Jenkins
  import opened Lifecycle

  const Base := Builder("http://ci/", "user", "token")

  /** A queue item still waiting. */
  const Waiting: Reply<QueueItem> := Answered(StatusOK, Some(QueueItem(Some(false), None)))

  /** A status request that never reached the server. */
  const Lost: Reply<QueueItem> := Unreachable

  /** A Jenkins `Location` header for queue item 7 yields queue id 7. */
  lemma LocationOfItem7()
    ensures StartTask(TriggerAnswered(StatusCreated, "http://ci/queue/item/7/")) == Settled(Ticket(7))
  {
    LocationRoundTrip("http://ci/queue/item", 7);
    SevenInDecimal();
    assert "http://ci/queue/item" + "/" + "7" + "/" == "http://ci/queue/item/7/";
  }

  /** `strconv.Itoa(7)` is "7". */
  lemma SevenInDecimal()
    ensures Text.Itoa(7) == "7"
  {
    assert Text.Decimal(7) == [Text.DigitChar(7)];
  }

  /** A `Location` without its trailing slash: the segment before the last `/` is "item",
      which is not an integer, so the trigger attempt fails and is retried. */
  lemma LocationWithoutTrailingSlash()
    ensures StartTask(TriggerAnswered(StatusCreated, "http://ci/queue/item/7")) == Transient(BadQueueId("item"))
  {
    SecondToLastSegment("http://ci/queue", "item", "7");
    assert "http://ci/queue" + "/" + "item" + "/" + "7" == "http://ci/queue/item/7";
    assert !Text.IsDigit("item"[0]);
  }

  /** The item in the queue seen cancelled. */
  const Withdrawn: Reply<QueueItem> := Answered(StatusOK, Some(QueueItem(Some(true), None)))

  /** The item in the queue given run 42. */
  const Assigned: Reply<QueueItem> := Answered(StatusOK, Some(QueueItem(None, Some(Executable(Some(42))))))

  /** Run 42 while building, and once finished with SUCCESS. */
  const Building := RunInfo(Some(42), Some("u"), Some(true), None)
  const Succeeded := RunInfo(Some(42), Some("u"), Some(false), Some("SUCCESS"))

  /** Waiting, waiting, then cancelled: a kind-1 and a kind-3 "ABORTED" callback, no kind 2. */
  lemma CancelledInQueue(job: string, encode: map<string, string> -> string, enqueued: TriggerReply)
    requires StartTask(enqueued) == Settled(Ticket(7))
    ensures RunBuild(Base, job, map[], encode, Server([enqueued], [Waiting, Waiting, Withdrawn], []))
         == Execution([Queued(7), Aborted], [Trigger(PlainTrigger(Base, job)), QueuePoll(7), QueuePoll(7), QueuePoll(7)], Done)
  {
    SubmissionSettles([enqueued], 0);
    var queue := [Waiting, Waiting, Withdrawn];
    assert QueueVerdict(Waiting) == Pending;
    assert QueueVerdict(Withdrawn) == Settled(Cancelled);
    assert queue[..2] == [Waiting, Waiting];
    assert [Waiting, Waiting][1..] == [Waiting];
    assert Transients([Waiting], QueueVerdict) == 0;
    assert Transients(queue[..2], QueueVerdict) == 0;
    assert queue[0] == Waiting && queue[1] == Waiting;
    assert StopsAt(queue, QueueVerdict, 0, 2);
    PollStopsAt(queue, QueueVerdict, 0, 2);
    assert Repeat(QueuePoll(7), 3) == [QueuePoll(7), QueuePoll(7), QueuePoll(7)];
    assert WaitInQueue(job, 7, queue, []) == Execution([Queued(7), Aborted], Repeat(QueuePoll(7), 3), Done);
    assert Repeat(Trigger(PlainTrigger(Base, job)), 1) == [Trigger(PlainTrigger(Base, job))];
  }

  /** Waiting, then run 42; the run first still building, then finished with SUCCESS:
      callbacks 1, 2, 3 with the two run replies as payloads. */
  lemma NormalBuild(job: string, encode: map<string, string> -> string, enqueued: TriggerReply)
    requires StartTask(enqueued) == Settled(Ticket(7))
    ensures var x := RunBuild(Base, job, map[], encode,
                              Server([enqueued], [Waiting, Assigned], [Answered(StatusOK, Some(Building)), Answered(StatusOK, Some(Succeeded))]));
      && x.outcome == Done
      && x.events == [Queued(7), Started(Building), Finished(Succeeded)]
      && x.events[2].Value() == "SUCCESS"
      && x.requests == [Trigger(PlainTrigger(Base, job)), QueuePoll(7), QueuePoll(7), RunPoll(job, 42), RunPoll(job, 42)]
  {
    SubmissionSettles([enqueued], 0);
    NormalAfterQueued(job);
    assert Repeat(Trigger(PlainTrigger(Base, job)), 1) == [Trigger(PlainTrigger(Base, job))];
  }

  /** The same build from the kind-1 callback on. */
  lemma NormalAfterQueued(job: string)
    ensures WaitInQueue(job, 7, [Waiting, Assigned], [Answered(StatusOK, Some(Building)), Answered(StatusOK, Some(Succeeded))])
         == Execution([Queued(7), Started(Building), Finished(Succeeded)], [QueuePoll(7), QueuePoll(7), RunPoll(job, 42), RunPoll(job, 42)], Done)
  {
    AssignedAfterOneWait();
    BuildingThenSucceeded();
    assert Repeat(QueuePoll(7), 2) == [QueuePoll(7), QueuePoll(7)];
    assert Repeat(RunPoll(job, 42), 2) == [RunPoll(job, 42), RunPoll(job, 42)];
  }

  /** One waiting poll, then the executable: the queue wait settles on run 42 after two polls. */
  lemma AssignedAfterOneWait()
    ensures Poll([Waiting, Assigned], QueueVerdict, 0) == Polled(Reached(Executing(42)), 2)
  {
  }

  /** A building reply then a finished one: kind 2 for the first, kind 3 for the second. */
  lemma BuildingThenSucceeded()
    ensures RunWait([Answered(StatusOK, Some(Building)), Answered(StatusOK, Some(Succeeded))], 0, false)
         == RunPhase([Started(Building), Finished(Succeeded)], Reached(Succeeded), 2)
  {
  }

  /** Five failed queue polls, a successful poll of a waiting item, then failures. */
  const Flaky: seq<Reply<QueueItem>> := [Lost, Lost, Lost, Lost, Lost, Waiting, Lost, Lost, Lost, Lost, Lost, Lost, Waiting]

  /** On `Flaky` the twelfth queue poll is the eleventh failure and ends the build with
      its error, after the kind-1 callback alone: the successful poll did not reset the
      counter. */
  lemma FailuresAccumulateAcrossSuccess(job: string, encode: map<string, string> -> string, enqueued: TriggerReply)
    requires StartTask(enqueued) == Settled(Ticket(7))
    ensures var x := RunBuild(Base, job, map[], encode, Server([enqueued], Flaky, []));
      && x.outcome == Failed(TransportError)
      && x.events == [Queued(7)]
      && x.requests == [Trigger(PlainTrigger(Base, job))] + Repeat(QueuePoll(7), 12)
  {
    SubmissionSettles([enqueued], 0);
    FlakyStopsAtTwelfthPoll();
    QueueGivesUp(Base, job, map[], encode, Server([enqueued], Flaky, []), 7, 11);
    assert Repeat(Trigger(PlainTrigger(Base, job)), 1) == [Trigger(PlainTrigger(Base, job))];
  }

  /** The reference stopping point of the queue wait on `Flaky` is its twelfth reply. */
  lemma FlakyStopsAtTwelfthPoll()
    ensures StopsAt(Flaky, QueueVerdict, 0, 11)
    ensures GetInfo(Flaky[11]) == Failure(TransportError)
  {
    var five := [Lost, Lost, Lost, Lost, Lost];
    assert Flaky[..11] == five + [Waiting] + five;
    TransientsOfFailures(five, QueueVerdict);
    TransientsConcat(five + [Waiting], five, QueueVerdict);
    TransientsConcat(five, [Waiting], QueueVerdict);
  }
}

=== FILE: text.dfy ===
/** The few string operations of Go's standard library that the build driver relies on:
    splitting around a separator (`strings.Split`) and decimal conversion of 64-bit
    integers (`strconv.Itoa`, `strconv.Atoi`). */
module Text {
  import opened Wrappers

  /** Splits `s` around every occurrence of `sep`; `n` separators give `n + 1` parts,
      and the empty string gives one empty part, as `strings.Split` does. */
  function Split(s: string, sep: char): (parts: seq<string>)
    ensures |parts| >= 1
    ensures |parts| == 1 <==> sep !in s
    ensures forall i :: 0 <= i < |parts| ==> sep !in parts[i]
    decreases |s|
  {
    if |s| == 0 then [""]
    else if s[0] == sep then [""] + Split(s[1..], sep)
    else
      var rest := Split(s[1..], sep);
      assert sep in s <==> sep in s[1..] by {
        assert s == [s[0]] + s[1..];
      }
      [[s[0]] + rest[0]] + rest[1..]
  }

  /** Concatenates `parts` with `sep` between neighbours (`strings.Join`). */
  function Join(parts: seq<string>, sep: char): string
    decreases |parts|
  {
    if |parts| == 0 then ""
    else if |parts| == 1 then parts[0]
    else parts[0] + [sep] + Join(parts[1..], sep)
  }

  /** Joining the parts back restores the split string. */
  lemma {:induction false} JoinSplit(s: string, sep: char)
    ensures Join(Split(s, sep), sep) == s
    decreases |s|
  {
    if |s| == 0 {
    } else if s[0] == sep {
      var rest := Split(s[1..], sep);
      JoinSplit(s[1..], sep);
      assert ([""] + rest)[1..] == rest;
      assert s == [sep] + s[1..];
    } else {
      JoinSplit(s[1..], sep);
      JoinSplitExtend(s, sep);
    }
  }

  /** The step of `JoinSplit` for a first character other than the separator: it joins
      the first part of the rest. */
  lemma JoinSplitExtend(s: string, sep: char)
    requires |s| > 0 && s[0] != sep
    requires Join(Split(s[1..], sep), sep) == s[1..]
    ensures Join(Split(s, sep), sep) == s
  {
    var rest := Split(s[1..], sep);
    var parts := [[s[0]] + rest[0]] + rest[1..];
    assert Split(s, sep) == parts;
    assert s == [s[0]] + s[1..];
    if |rest| == 1 {
      assert parts == [[s[0]] + rest[0]];
    } else {
      assert parts[1..] == rest[1..];
      assert Join(rest, sep) == rest[0] + [sep] + Join(rest[1..], sep);
    }
  }

  /** A string without the separator splits into itself alone. */
  lemma SplitWithoutSeparator(s: string, sep: char)
    requires sep !in s
    ensures Split(s, sep) == [s]
  {
    JoinSplit(s, sep);
  }

  /** A separator between two strings separates their parts. */
  lemma {:induction false} SplitConcat(a: string, b: string, sep: char)
    ensures Split(a + [sep] + b, sep) == Split(a, sep) + Split(b, sep)
    decreases |a|
  {
    var s := a + [sep] + b;
    if |a| == 0 {
      assert s == [sep] + b;
      assert s[1..] == b;
    } else {
      assert s[0] == a[0];
      assert s[1..] == a[1..] + [sep] + b;
      SplitConcat(a[1..], b, sep);
    }
  }

  /** Splitting undoes joining parts that do not contain the separator. */
  lemma {:induction false} SplitJoin(parts: seq<string>, sep: char)
    requires |parts| >= 1
    requires forall i :: 0 <= i < |parts| ==> sep !in parts[i]
    ensures Split(Join(parts, sep), sep) == parts
    decreases |parts|
  {
    SplitWithoutSeparator(parts[0], sep);
    if |parts| > 1 {
      SplitJoin(parts[1..], sep);
      SplitConcat(parts[0], Join(parts[1..], sep), sep);
      assert parts == [parts[0]] + parts[1..];
    }
  }

  // ---------------------------------------------------------------------------
  // Decimal integers

  /** Bounds of Go's 64-bit `int`, the range `strconv.Atoi` accepts. */
  const MinInt64: int := -0x8000_0000_0000_0000
  const MaxInt64: int := 0x7fff_ffff_ffff_ffff

  predicate IsDigit(c: char) {
    '0' <= c <= '9'
  }

  predicate AllDigits(s: string) {
    forall i :: 0 <= i < |s| ==> IsDigit(s[i])
  }

  predicate IsSign(c: char) {
    c == '-' || c == '+'
  }

  /** Text `strconv.Atoi` reads as a base-10 integer: at least one decimal digit, and
      nothing else apart from a sign in front. */
  predicate DecimalText(s: string) {
    && (exists i :: 0 <= i < |s| && IsDigit(s[i]))
    && (forall i :: 0 <= i < |s| ==> IsDigit(s[i]) || (i == 0 && IsSign(s[i])))
  }

  function DigitValue(c: char): nat
    requires IsDigit(c)
  {
    c as int - '0' as int
  }

  function DigitChar(d: nat): (c: char)
    requires d < 10
    ensures IsDigit(c) && DigitValue(c) == d
  {
    ('0' as int + d) as char
  }

  /** Value of a string of decimal digits, read most significant digit first. */
  function DecimalValue(ds: string): nat
    requires AllDigits(ds)
    decreases |ds|
  {
    if |ds| == 0 then 0
    else 10 * DecimalValue(ds[..|ds| - 1]) + DigitValue(ds[|ds| - 1])
  }

  /** Shortest decimal rendering of a natural number. */
  function Decimal(n: nat): (ds: string)
    ensures |ds| >= 1 && AllDigits(ds)
    decreases n
  {
    if n < 10 then [DigitChar(n)] else Decimal(n / 10) + [DigitChar(n % 10)]
  }

  /** Reading the rendering of `n` gives `n` back. */
  lemma {:induction false} DecimalValueOfDecimal(n: nat)
    ensures DecimalValue(Decimal(n)) == n
    decreases n
  {
    if n >= 10 {
      var ds := Decimal(n);
      assert ds[..|ds| - 1] == Decimal(n / 10);
      DecimalValueOfDecimal(n / 10);
    }
  }

  /** `strconv.Itoa`: a minus sign for negative numbers, then the digits. */
  function Itoa(n: int): (s: string)
    ensures DecimalText(s)
    ensures s[0] == '-' <==> n < 0
    ensures '/' !in s
  {
    var s := if n < 0 then "-" + Decimal(-n) else Decimal(n);
    assert forall i :: 0 <= i < |s| ==> IsDigit(s[i]) || (i == 0 && s[i] == '-');
    assert IsDigit(s[|s| - 1]);
    s
  }

  /** The error `strconv.Atoi` reports for `text`; syntax and range errors are not told apart. */
  datatype NumError = NotAnInt(text: string)

  /** `strconv.Atoi`: an optional sign, at least one decimal digit and nothing else, with a
      value in the 64-bit range. */
  function Atoi(s: string): (r: Result<int, NumError>)
    ensures r.Success? ==> MinInt64 <= r.value <= MaxInt64
    ensures r.Failure? ==> r.error == NotAnInt(s)
  {
    var signed := |s| > 0 && IsSign(s[0]);
    var digits := Unsigned(s);
    if |digits| == 0 || !AllDigits(digits) then Failure(NotAnInt(s))
    else
      var magnitude := DecimalValue(digits);
      var n := if signed && s[0] == '-' then 0 - magnitude as int else magnitude as int;
      if n < MinInt64 || MaxInt64 < n then Failure(NotAnInt(s)) else Success(n)
  }

  /** `strconv.Atoi` accepts only decimal text, and accepts all of it up to 18 characters,
      which cannot leave the 64-bit range. */
  lemma AtoiReadsDecimalText(s: string)
    ensures Atoi(s).Success? ==> DecimalText(s)
    ensures DecimalText(s) && |s| <= 18 ==> Atoi(s).Success?
  {
    DecimalTextDigits(s);
    var digits := Unsigned(s);
    if |digits| > 0 && AllDigits(digits) {
      ShortDecimalFits(digits);
    }
  }

  /** At most 18 decimal digits denote a value well inside the 64-bit range. */
  lemma ShortDecimalFits(ds: string)
    requires AllDigits(ds)
    ensures |ds| <= 18 ==> DecimalValue(ds) < MaxInt64
  {
    if |ds| <= 18 {
      DecimalValueBound(ds);
      Pow10Monotone(|ds|, 18);
      assert Pow10(1) == 10;
      assert Pow10(2) == 100;
      assert Pow10(3) == 1000;
      assert Pow10(4) == 10000;
      assert Pow10(5) == 100000;
      assert Pow10(6) == 1000000;
      assert Pow10(7) == 10000000;
      assert Pow10(8) == 100000000;
      assert Pow10(9) == 1000000000;
      assert Pow10(10) == 10000000000;
      assert Pow10(11) == 100000000000;
      assert Pow10(12) == 1000000000000;
      assert Pow10(13) == 10000000000000;
      assert Pow10(14) == 100000000000000;
      assert Pow10(15) == 1000000000000000;
      assert Pow10(16) == 10000000000000000;
      assert Pow10(17) == 100000000000000000;
      assert Pow10(18) == 1000000000000000000;
    }
  }

  /** `s` without its leading sign, if it has one. */
  function Unsigned(s: string): string {
    if |s| > 0 && IsSign(s[0]) then s[1..] else s
  }

  /** Decimal text is a sign followed by at least one digit, or only digits; either way
      what follows the sign is a non-empty run of digits, and back. */
  lemma DecimalTextDigits(s: string)
    ensures DecimalText(s) <==> |Unsigned(s)| > 0 && AllDigits(Unsigned(s))
  {
    var digits := Unsigned(s);
    assert forall i :: 0 <= i < |digits| ==> digits[i] == s[i + |s| - |digits|];
    if DecimalText(s) && |s| > 0 && !IsSign(s[0]) {
      assert IsDigit(s[0]);
    }
    if |digits| > 0 && AllDigits(digits) {
      assert IsDigit(s[|s| - 1]);
    }
  }

  function Pow10(k: nat): (p: nat)
    ensures p >= 1
  {
    if k == 0 then 1 else 10 * Pow10(k - 1)
  }

  lemma {:induction false} Pow10Monotone(j: nat, k: nat)
    requires j <= k
    ensures Pow10(j) <= Pow10(k)
    decreases k - j
  {
    if j < k {
      Pow10Monotone(j + 1, k);
    }
  }

  /** `k` decimal digits stay below `10^k`. */
  lemma {:induction false} DecimalValueBound(ds: string)
    requires AllDigits(ds)
    ensures DecimalValue(ds) < Pow10(|ds|)
    decreases |ds|
  {
    if |ds| > 0 {
      DecimalValueBound(ds[..|ds| - 1]);
    }
  }

  /** Every 64-bit integer survives the trip through `Itoa` and `Atoi`. */
  lemma AtoiItoa(n: int)
    requires MinInt64 <= n <= MaxInt64
    ensures Atoi(Itoa(n)) == Success(n)
  {
    var s := Itoa(n);
    var magnitude: nat := if n < 0 then -n else n;
    if n < 0 {
      assert Unsigned(s) == Decimal(magnitude) by {
        assert s[1..] == Decimal(magnitude);
      }
    } else {
      assert IsDigit(s[0]);
      assert Unsigned(s) == Decimal(magnitude);
    }
    DecimalValueOfDecimal(magnitude);
  }
}

=== FILE: wrappers.dfy ===
/** Failure-carrying datatypes used throughout the model. */
module Wrappers {

  /** An optional value: a JSON field that may be absent or null. */
  datatype Option<+T> = None | Some(value: T)

  /** Either a value or the error that prevented computing it (Go's `(T, error)` pair). */
  datatype Result<+T, +E> = Success(value: T) | Failure(error: E)
}
